=== FILE: README.md ===
# Sebu cache engine — a Dafny model

Sebu is a two-tier object cache written in Swift. Its engine has three parts:

- a volatile in-process store (`NSCache`);
- for persistent instances, a durable directory holding one file per entry name;
- a metadata index (`CacheInfo`) that records an optional expiration for each name.

This project models that engine as pure functions over an immutable state and proves properties of them.

- `common.dfy` (module `Common`): optional values, results, and the three error kinds. The error kinds are storage, serialization, and permission.
- `cache_info.dfy` (module `CacheInfo`): the index as a sequence of `{name, expiration?}` records.
  - `Lookup`, `Assign` (the subscript setter) and `RemoveObject` all resolve a name to its **last** matching record.
  - `IsExpired` takes the current instant as a parameter.
  - `ToMap` is an independent last-write-wins map reading of the sequence. The positional operations are proved against it.
  - `AnyRecord`, `ExpiredNames`, `RemoveAll` and `Unexpired` are the scans used by `hasObject` and `purgeOutdated`.
- `storage.dfy` (module `Storage`): the durable directory and the serializer.
  - `Disk` records whether the directory exists, whether the medium accepts changes, and a map from name to blob.
  - A missing directory holds no files (`WellFormed`); creating it gives an empty directory, so deleted files never come back.
  - The serializer is a pair of functions: `encode`, which may fail, and `decode` at a requested type, which may fail.
- `engine.dfy` (module `Engine`): the `Sebu` state and the operations `Set`, `Get`, `HasObject`, `Clear`, `ClearAll`, `ClearEach` and `PurgeOutdated`.
  - The state is `isPersistent`, the volatile map, the index, and the disk.
  - Each mutating operation returns the state it leaves behind together with a status. The Swift code changes memory and the index before it reaches the step that can throw, so a failed call still has effects.
- `engine_facts.dfy` (module `EngineFacts`): lemmas that relate several operations.

Time is an explicit integer instant `now`. A payload carries a type tag. A volatile hit counts only when the tag is exactly the type the caller asked for, which is narrower than Swift's conditional cast (see "Left out").

The model follows the code where it departs from the intended behaviour:

- `clearAll` does not reset the index (`Sources/Sebu/Sebu.swift:142-152`). Its records keep naming files that no longer exist.
  - `EngineFacts.ClearAllLeavesStaleMetadata` proves the consequence. After a successful `clearAll`, every `get` throws, yet `hasObject` answers exactly as before.
- `clear` on a persistent instance throws when the file is missing, because `removeItem` throws (`Sources/Sebu/Sebu.swift:158`). A missing file is therefore an error.
  - The index record has already been removed when it throws.
  - `purgeOutdated` stops at the first such failure (`EngineFacts.ClearEachStopsAtFirstFailure`), and on a persistent instance any expired name listed twice makes it fail (`EngineFacts.PurgeFailsOnAnyRepeat`), after the name's index records are removed (`EngineFacts.PurgeFailsOnRepeatedExpiredName`).
- The index does not guarantee that each name has exactly one record.
  - An index with distinct names stays distinct under every operation (`EngineFacts.OperationsKeepDistinct`).
  - With duplicates, `hasObject` can see a live older record that `get` ignores (`EngineFacts.HasObjectSeesOlderDuplicate`).
  - With duplicates, `purgeOutdated` can remove the live record and keep the expired one (`CacheInfo.PurgeRemovesWrongDuplicate`).

## Model

| member | source | states |
|---|---|---|
| CacheInfo.ExpiryRule | Sources/Sebu/Sebu.swift:63-65 | a record without expiration is never expired; with one it is expired exactly when the expiration is strictly before now, so it is still live at that instant |
| CacheInfo.ExpiryIsMonotone | Sources/Sebu/Sebu.swift:63-65 | an expired record has an expiration, and stays expired at every later instant |
| CacheInfo.LastIndex | Sources/Sebu/Sebu.swift:73 | the result is the position of the last record with the name, and it is absent exactly when no record has the name |
| CacheInfo.Lookup | Sources/Sebu/Sebu.swift:68-71 | the getter returns the record at the last matching position, and returns none exactly when no record has the name |
| CacheInfo.LookupIsMapGet | Sources/Sebu/Sebu.swift:68-71 | the positional lookup agrees with the last-write-wins map reading of the index, for every name |
| CacheInfo.Assign | Sources/Sebu/Sebu.swift:72-82 | with a value: the last match is overwritten in place with the length and every other position kept, or the value is appended when there is no match. With nil: the last match is cut out, or the index is unchanged |
| CacheInfo.AssignSomeLookup | Sources/Sebu/Sebu.swift:72-82 | after an upsert of a record named n, a lookup of n returns that record and every other name reads as before |
| CacheInfo.AssignIsMapUpdate | Sources/Sebu/Sebu.swift:72-82 | an upsert is the map update m[n := record] of the index's map reading |
| CacheInfo.AssignKeepsDistinct | Sources/Sebu/Sebu.swift:72-82 | an upsert never introduces a duplicate name |
| CacheInfo.RemoveObject | Sources/Sebu/Sebu.swift:85-88 | exactly the last record with the name is deleted: the prefix and suffix keep their order, the length drops by one, and the multiset loses just that record. It is a no-op when no record matches |
| CacheInfo.AssignNoneIsRemove | Sources/Sebu/Sebu.swift:76-77 | setting the subscript to nil is the same operation as removeObject |
| CacheInfo.RemoveObjectLookupOther | Sources/Sebu/Sebu.swift:85-88 | removing one name leaves the lookup of every other name unchanged |
| CacheInfo.RemoveObjectLookupSame | Sources/Sebu/Sebu.swift:85-88 | after a removal, a lookup of the name finds the record of that name that preceded the removed one |
| CacheInfo.RemoveObjectDistinct | Sources/Sebu/Sebu.swift:85-88 | on a duplicate-free index, removal makes the name absent and keeps the index duplicate-free |
| CacheInfo.RemoveObjectIsMapRemoval | Sources/Sebu/Sebu.swift:85-88 | on a duplicate-free index, removal is the map removal m - {n} of the index's map reading |
| CacheInfo.RemoveRevealsOlderDuplicate | Sources/Sebu/Sebu.swift:68-88 | with two records of one name, removal makes the older record the one a lookup returns |
| CacheInfo.AnyRecord | Sources/Sebu/Sebu.swift:138-139 | the scan is true exactly when some record has the name and, when expiration is checked, that same record is unexpired |
| CacheInfo.ExpiredNames | Sources/Sebu/Sebu.swift:167-169 | a name is listed exactly when some record with that name has an expiration before now; the list and the unexpired records together account for every record |
| CacheInfo.ExpiredNamesAppend | Sources/Sebu/Sebu.swift:167-169 | the expired names of a concatenation are those of each part, in index order |
| CacheInfo.ExpiredNamesOfOne | Sources/Sebu/Sebu.swift:167-169 | one record contributes its name exactly when it has expired, so with the append law there is one entry per expired record |
| CacheInfo.RemoveExpiredKeepsUnexpired | Sources/Sebu/Sebu.swift:166-172 | on a duplicate-free index, removing the expired names one by one leaves exactly the unexpired records, in order |
| CacheInfo.PurgeRemovesWrongDuplicate | Sources/Sebu/Sebu.swift:166-172 | for any expired record followed by a live record of the same name, the expired name is listed once and its removal takes the live record, leaving only the expired one |
| Storage.OperationsKeepWellFormed | Sources/Sebu/Sebu.swift:146-151 | writing, deleting a file, deleting the directory and creating it all keep a missing directory free of files |
| Storage.CreateRootAddsNoFiles | Sources/Sebu/Sebu.swift:178-186 | creating the directory never makes a file readable that was not readable before |
| Storage.RecreatedRootIsEmpty | Sources/Sebu/Sebu.swift:146-151 | after deleting the directory and creating it again, the directory exists and no name can be read |
| Storage.ReadAfterWrite | Sources/Sebu/Sebu.swift:101-103 | a blob written under a name reads back unchanged, and other names read as before |
| Storage.ReadAfterRemove | Sources/Sebu/Sebu.swift:158 | a removed blob can no longer be read, and other names read as before |
| Engine.Set | Sources/Sebu/Sebu.swift:91-108 | the volatile store and index are always updated. A non-persistent instance succeeds with the disk untouched. A persistent instance succeeds exactly when the medium is writable and encoding succeeds, and then holds the encoded payload under the name, with every other file reading as before. A failure leaves every file reading as before and names the step that failed |
| Engine.Get | Sources/Sebu/Sebu.swift:110-132 | the full decision table: trusted volatile hit, permission error without a durable tier, storage or serialization error from the file, then the decoded value or a policy miss. It never returns data when the metadata is missing or expired and expiration is not bypassed |
| Engine.HasObject | Sources/Sebu/Sebu.swift:134-140 | true exactly when some index record has the name and, when checking expiration, is unexpired. Only the index is consulted |
| Engine.ClearAll | Sources/Sebu/Sebu.swift:142-152 | the volatile store is emptied and the index is unchanged. A persistent instance succeeds exactly when the directory exists and is writable, and then has an empty existing directory |
| Engine.Clear | Sources/Sebu/Sebu.swift:154-163 | the last index record of the name is removed and the volatile store is unchanged. A persistent instance succeeds exactly when the file exists and is writable, and then loses only that file |
| Engine.ClearEach | Sources/Sebu/Sebu.swift:171 | memory is untouched and a non-persistent run never fails; when every clear succeeds, the index has had each name removed in turn and exactly those files are gone |
| Engine.PurgeOutdated | Sources/Sebu/Sebu.swift:166-172 | memory is unchanged and a non-persistent instance never fails. On success, a file survives exactly when no record of its name has expired |
| EngineFacts.SetRecordsMetadata | Sources/Sebu/Sebu.swift:97 | after set, the name's metadata is the record just written, so get's expiry verdict is that record's |
| EngineFacts.SetThenGet | Sources/Sebu/Sebu.swift:96-119 | get right after set returns the payload when expiration is bypassed or has not passed, even if the durable write failed |
| EngineFacts.SetThenGetExpiredPersistent | Sources/Sebu/Sebu.swift:110-132 | for a persistent instance with an expired entry and a faithful serializer, get returns nil (policy miss) and get with bypass returns the payload |
| EngineFacts.SetThenGetExpiredMemoryOnly | Sources/Sebu/Sebu.swift:122 | for a non-persistent instance with an expired entry, get without bypass throws the permission error |
| EngineFacts.SetThenGetFromDisk | Sources/Sebu/Sebu.swift:122-131 | with the volatile store lost, get after a successful persistent set finds the payload on disk under the same expiration rule |
| EngineFacts.SetThenHasObject | Sources/Sebu/Sebu.swift:134-140 | after set, hasObject without an expiry check is true; on a duplicate-free index, with the check it is true exactly when the new record is unexpired |
| EngineFacts.HasObjectIsLookup | Sources/Sebu/Sebu.swift:134-140 | on a duplicate-free index, hasObject asks about the same record that get consults |
| EngineFacts.HasObjectSeesOlderDuplicate | Sources/Sebu/Sebu.swift:134-140 | with duplicates, hasObject can be true while get treats the name as expired |
| EngineFacts.ClearKeepsVolatileValue | Sources/Sebu/Sebu.swift:154-163 | after clear, a correctly typed volatile value is still returned by get with bypass |
| EngineFacts.ClearForgetsMetadata | Sources/Sebu/Sebu.swift:155 | on a duplicate-free index, after clear no record of the name remains and get treats the name as unknown |
| EngineFacts.ClearAllLeavesStaleMetadata | Sources/Sebu/Sebu.swift:142-152 | after a successful clearAll every get throws a storage error (persistent) or a permission error (non-persistent), while hasObject answers as before |
| EngineFacts.PurgeKeepsUnexpired | Sources/Sebu/Sebu.swift:166-172 | on a duplicate-free index, a successful purge leaves exactly the unexpired records, in order |
| EngineFacts.PurgeMemoryOnly | Sources/Sebu/Sebu.swift:166-172 | on a non-persistent duplicate-free instance, the purge succeeds, and afterwards a name has a record exactly when it had a live record before |
| EngineFacts.ClearEachStopsAtFirstFailure | Sources/Sebu/Sebu.swift:171 | a failing run of clears is the successful run over some prefix followed by one failing clear of the next name, whose index record is already removed |
| EngineFacts.ClearEachSucceedsIff | Sources/Sebu/Sebu.swift:154-171 | on a persistent instance, clearing distinct names succeeds exactly when there are none, or the directory exists, accepts changes and holds a file for each |
| EngineFacts.ExpiredNamesNoRepeats | Sources/Sebu/Sebu.swift:167-169 | on an index without duplicate names, each expired name is listed once |
| EngineFacts.PurgeSucceedsIff | Sources/Sebu/Sebu.swift:166-172 | on a persistent instance with a duplicate-free index, the purge succeeds exactly when every expired record's file is present in an existing directory that accepts changes |
| EngineFacts.ClearEachDoneFilesPresent | Sources/Sebu/Sebu.swift:154-171 | a successful persistent run of clears found a file for every name and met no name twice |
| EngineFacts.PurgeFailsOnAnyRepeat | Sources/Sebu/Sebu.swift:158-171 | whenever the expired names of the index repeat, a persistent purge throws a storage error |
| EngineFacts.PurgeFailsOnRepeatedExpiredName | Sources/Sebu/Sebu.swift:166-172 | an example: with two expired records of one name and its file present, the persistent purge deletes the file, then throws on the second clear, with both records already gone |
| EngineFacts.RemoveAllKeepsDistinct | Sources/Sebu/Sebu.swift:171 | removing any sequence of names keeps a duplicate-free index duplicate-free |
| EngineFacts.ClearEachKeepsDistinct | Sources/Sebu/Sebu.swift:171 | clearing names one by one keeps a duplicate-free index duplicate-free, even when a clear throws |
| EngineFacts.OperationsKeepDistinct | Sources/Sebu/Sebu.swift:91-172 | set, clear, clearAll and purgeOutdated each keep a duplicate-free index duplicate-free |

## Left out

- The debounced index sync, `sync()` (`Sources/Sebu/Sebu.swift:188-209`), and the background `Task`s that start it (lines 105-107 and 160-162).
  - It is concurrency and file I/O, and its errors are discarded with `try?`.
  - It keeps a file named `CacheInfo` in the same cache directory that holds the entry files (lines 196-205), and appends the encoded index to it on every run. The model's `Disk` holds only entry files, so that file is absent from it. The next line lists what this changes.
- Loading the index from disk at first use (`Sources/Sebu/Sebu.swift:28-35`, `44-57`). This is file I/O and decoding.
  - The lemmas quantify over every index, including one loaded with duplicate names.
- `getSize` and the `URL` extension (`Sources/Sebu/Sebu.swift:174-176`, `212-244`). They are a filesystem size query.
- The shared instances, `defaultCachePath`, `cachePath`, and the encoder and decoder singletons (`Sources/Sebu/Sebu.swift:4-25`).
  - Each instance owns one abstract `Disk`.
  - Entry names are flat keys of that one directory.
- Engine.Set, Engine.Get, Engine.Clear: the Swift code appends the entry name to the cache directory as a path component, and some names are not flat keys there.
  - `CacheInfo` is the index file the sync keeps. A persistent `clear("CacheInfo")` succeeds and deletes the index file, where the model's `Clear` fails for want of an entry file. A `set` under that name starts a sync that appends the index to the payload file. Once that sync has run, a disk read of the name fails to decode, contrary to `EngineFacts.SetThenGetFromDisk`.
  - `""` and `"."` name the directory itself: a `set` fails to write (a storage error, where the model's `Set` succeeds) and a `clear` deletes the whole directory.
  - `".."` names the parent directory, and a name containing `/` names a file in a subdirectory.
- JSON encoding and decoding. These are the two functions of a `Serializer`, left uninterpreted.
  - Round trips assume `Faithful`: decoding what was encoded, at the payload's own type, returns the payload.
- `Date()`. Each operation takes one instant `now`. The clock moving between the per-record reads inside one `hasObject` or `purgeOutdated` call is not modelled.
- `NSCache` eviction under memory pressure. The volatile store is a plain map.
  - `EngineFacts.SetThenGetFromDisk` states what happens when that map is lost.
- Engine.VolatileHit: a hit needs the stored type tag to equal the requested one. Swift's conditional cast also succeeds for a subclass asked for as its superclass, and for a bridged number asked for as another numeric type. Class payloads are held by reference in `NSCache`, so a caller's later mutation shows in volatile hits; a `Payload` here is an immutable value.
- CacheInfo.Lookup, CacheInfo.Assign, CacheInfo.RemoveObject, CacheInfo.AnyRecord: names are compared as exact character sequences. Swift's `String` equality identifies canonically equivalent strings (a precomposed and a decomposed accent), `NSCache` keys compare UTF-16 code units literally, and file names go through the file system's normalization. Canonically equivalent names are therefore distinct in every tier of the model.
- File system faults other than missing files and directories (permissions, full disk, and so on). They are folded into one flag, `Disk.writable`: when it is false, every create, write and delete fails with a storage error. Reads fail only for a missing file or directory, so a read fault on a file that exists, which makes the Swift `get` throw, is not modelled.
- `Sources/Sebu/Log.swift` (console output), `Package.swift` (build manifest), and `Tests/SebuTests/SebuTests.swift` (a smoke test with no assertions).
- Engine.Get: does not constrain the type of a value decoded from disk, because the decoder is uninterpreted. Only the volatile path is shown to return a payload of the requested type.
- EngineFacts.PurgeKeepsUnexpired: stated only for an index whose names are distinct. With duplicates the purge can remove the wrong record, as `CacheInfo.PurgeRemovesWrongDuplicate` shows.

=== FILE: cache_info.dfy ===
/** The metadata index (`Sebu.CacheInfo`): an ordered sequence of
    `{name, expiration?}` records that behaves like a map in which the LAST
    record carrying a name wins. Nothing prevents duplicate names in the
    sequence (an index loaded from disk may hold them); lookup, replacement
    and removal all resolve to the last match. */
module CacheInfo {
  import opened Common

  /** One record of the index (`CacheInfo.Object`). */
  datatype Object = Object(name: string, expiration: Option<Instant>)

  type Index = seq<Object>

  /** `Object.isExpired` at instant `now`: a record without an expiration
      never expires; otherwise it has expired once its expiration lies
      strictly before `now`. */
  predicate IsExpired(o: Object, now: Instant)
  {
    o.expiration.Some? && o.expiration.value < now
  }

  /** The expiry rule: no expiration means never expired; otherwise expired
      exactly when the expiration is strictly before `now` (an entry is still
      live at its expiration instant). */
  lemma ExpiryRule(o: Object, now: Instant)
    ensures o.expiration.None? ==> !IsExpired(o, now)
    ensures o.expiration.Some? ==> (IsExpired(o, now) <==> o.expiration.value < now)
    ensures o.expiration == Some(now) ==> !IsExpired(o, now)
  {
  }

  /** Expiry is permanent: once expired, a record stays expired as time moves on. */
  lemma ExpiryIsMonotone(o: Object, now: Instant, later: Instant)
    requires IsExpired(o, now) && now <= later
    ensures IsExpired(o, later)
    ensures o.expiration.Some?
  {
  }

  /** `i` is the position of the last record named `name`. */
  predicate IsLast(objs: Index, name: string, i: int)
  {
    && 0 <= i < |objs|
    && objs[i].name == name
    && forall k :: i < k < |objs| ==> objs[k].name != name
  }

  /** No record carries `name`. */
  predicate Absent(objs: Index, name: string)
  {
    forall k :: 0 <= k < |objs| ==> objs[k].name != name
  }

  /** The position of the last record named `name`, found by scanning from
      the end (the index's `lastIndex(where:)`). */
  function LastIndex(objs: Index, name: string): (r: Option<nat>)
    ensures r.Some? ==> IsLast(objs, name, r.value)
    ensures r.None? <==> Absent(objs, name)
  {
    if |objs| == 0 then None
    else if objs[|objs| - 1].name == name then Some(|objs| - 1)
    else LastIndex(objs[..|objs| - 1], name)
  }

  /** The subscript getter `cacheInfo[name]`: the last record named `name`. */
  function Lookup(objs: Index, name: string): (r: Option<Object>)
    ensures r.None? <==> Absent(objs, name)
    ensures forall i :: IsLast(objs, name, i) ==> r == Some(objs[i])
  {
    match LastIndex(objs, name)
    case None => None
    case Some(i) => Some(objs[i])
  }

  /** No two records of the index share a name. */
  predicate Distinct(objs: Index)
  {
    forall i, j :: 0 <= i < j < |objs| ==> objs[i].name != objs[j].name
  }

  /** The subscript setter `cacheInfo[name] = newValue`: with a value, it
      overwrites the last record named `name` in place, or appends the value
      when there is none; with `nil`, it deletes that last record, or does
      nothing when there is none. */
  function Assign(objs: Index, name: string, newValue: Option<Object>): (r: Index)
    ensures newValue.Some? && Absent(objs, name) ==> r == objs + [newValue.value]
    ensures newValue.None? && Absent(objs, name) ==> r == objs
    ensures forall i :: IsLast(objs, name, i) && newValue.Some? ==>
              |r| == |objs| && r[i] == newValue.value
              && forall k :: 0 <= k < |objs| && k != i ==> r[k] == objs[k]
    ensures forall i :: IsLast(objs, name, i) && newValue.None? ==>
              |r| == |objs| - 1 && r[..i] == objs[..i] && r[i..] == objs[i + 1..]
  {
    match LastIndex(objs, name)
    case Some(i) =>
      if newValue.Some? then objs[i := newValue.value] else objs[..i] + objs[i + 1..]
    case None =>
      if newValue.Some? then objs + [newValue.value] else objs
  }

  /** `removeObject(name)`: deletes exactly the last record named `name`,
      keeping every other record in its relative order; a no-op when no
      record carries that name. */
  function RemoveObject(objs: Index, name: string): (r: Index)
    ensures Absent(objs, name) ==> r == objs
    ensures forall i :: IsLast(objs, name, i) ==>
              |r| == |objs| - 1 && r[..i] == objs[..i] && r[i..] == objs[i + 1..]
              && multiset(r) + multiset{objs[i]} == multiset(objs)
  {
    match LastIndex(objs, name)
    case None => objs
    case Some(i) =>
      assert objs == objs[..i] + [objs[i]] + objs[i + 1..];
      objs[..i] + objs[i + 1..]
  }

  /** Setting the subscript to nil is the same operation as `removeObject`. */
  lemma AssignNoneIsRemove(objs: Index, name: string)
    ensures Assign(objs, name, None) == RemoveObject(objs, name)
  {
  }

  // ---------------------------------------------------------------------------
  // The index as a map: an independent, last-write-wins reading of the sequence.
  // ---------------------------------------------------------------------------

  /** The map the index stands for: records are applied front to back, so a
      later record overrides an earlier one with the same name. */
  function ToMap(objs: Index): map<string, Object>
  {
    if |objs| == 0 then map[]
    else ToMap(objs[..|objs| - 1])[objs[|objs| - 1].name := objs[|objs| - 1]]
  }

  function MapGet(m: map<string, Object>, name: string): Option<Object>
  {
    if name in m then Some(m[name]) else None
  }

  /** The positional lookup agrees with the last-write-wins map. */
  lemma {:induction false} LookupIsMapGet(objs: Index, name: string)
    ensures Lookup(objs, name) == MapGet(ToMap(objs), name)
  {
    if |objs| > 0 {
      var init := objs[..|objs| - 1];
      var last := objs[|objs| - 1];
      if last.name == name {
        assert IsLast(objs, name, |objs| - 1);
      } else {
        assert LastIndex(objs, name) == LastIndex(init, name);
        LookupIsMapGet(init, name);
      }
    }
  }

  /** Lookup is determined by where the last match sits. */
  lemma LookupAt(objs: Index, name: string, i: int)
    requires IsLast(objs, name, i)
    ensures Lookup(objs, name) == Some(objs[i])
  {
  }

  /** Assigning a value whose name is `name` behaves like a map update:
      the new record is what a lookup of `name` returns, and every other
      name reads as before. */
  lemma AssignSomeLookup(objs: Index, name: string, o: Object, other: string)
    requires o.name == name
    ensures Lookup(Assign(objs, name, Some(o)), name) == Some(o)
    ensures other != name ==> Lookup(Assign(objs, name, Some(o)), other) == Lookup(objs, other)
  {
    var r := Assign(objs, name, Some(o));
    match LastIndex(objs, name)
    case Some(i) =>
      assert IsLast(r, name, i);
      if other != name {
        match LastIndex(objs, other)
        case Some(j) =>
          assert IsLast(r, other, j);
        case None =>
          assert Absent(r, other);
      }
    case None =>
      assert IsLast(r, name, |objs|);
      if other != name {
        match LastIndex(objs, other)
        case Some(j) =>
          assert IsLast(r, other, j);
        case None =>
          assert Absent(r, other);
      }
  }

  /** The positions of `RemoveObject(objs, name)` in terms of `objs`. */
  lemma RemoveObjectShifts(objs: Index, name: string, i: int)
    requires IsLast(objs, name, i)
    ensures |RemoveObject(objs, name)| == |objs| - 1
    ensures forall k :: 0 <= k < i ==> RemoveObject(objs, name)[k] == objs[k]
    ensures forall k :: i <= k < |objs| - 1 ==> RemoveObject(objs, name)[k] == objs[k + 1]
  {
    var r := RemoveObject(objs, name);
    assert r[..i] == objs[..i] && r[i..] == objs[i + 1..];
    forall k | 0 <= k < i
      ensures r[k] == objs[k]
    {
      assert r[k] == r[..i][k];
    }
    forall k | i <= k < |objs| - 1
      ensures r[k] == objs[k + 1]
    {
      assert r[k] == r[i..][k - i];
    }
  }

  /** Removing `name` leaves every other name's lookup unchanged. */
  lemma RemoveObjectLookupOther(objs: Index, name: string, other: string)
    requires other != name
    ensures Lookup(RemoveObject(objs, name), other) == Lookup(objs, other)
  {
    match LastIndex(objs, name)
    case None =>
      assert RemoveObject(objs, name) == objs;
    case Some(i) =>
      RemoveObjectLookupOtherAt(objs, name, other, i);
  }

  lemma RemoveObjectLookupOtherAt(objs: Index, name: string, other: string, i: int)
    requires other != name && IsLast(objs, name, i)
    ensures Lookup(RemoveObject(objs, name), other) == Lookup(objs, other)
  {
    match LastIndex(objs, other)
    case Some(j) =>
      RemoveObjectKeepsLast(objs, name, other, i, j);
    case None =>
      RemoveObjectKeepsAbsent(objs, name, other, i);
  }

  /** The last record of another name moves down by one when it sat after the removed one. */
  lemma RemoveObjectKeepsLast(objs: Index, name: string, other: string, i: int, j: int)
    requires other != name && IsLast(objs, name, i) && IsLast(objs, other, j)
    ensures Lookup(RemoveObject(objs, name), other) == Some(objs[j])
  {
    var r := RemoveObject(objs, name);
    assert objs[i].name == name && objs[j].name == other;
    if j < i {
      RemoveObjectAt(objs, name, i, j);
      RemoveObjectKeepsLastAt(objs, name, other, i, j, j);
    } else {
      assert i < j;
      RemoveObjectAt(objs, name, i, j - 1);
      RemoveObjectKeepsLastAt(objs, name, other, i, j, j - 1);
    }
  }

  /** Position `p` of the shortened index holds the last record of `other`. */
  lemma RemoveObjectKeepsLastAt(objs: Index, name: string, other: string, i: int, j: int, p: int)
    requires IsLast(objs, name, i) && IsLast(objs, other, j) && i != j
    requires p == (if j < i then j else j - 1)
    requires 0 <= p < |RemoveObject(objs, name)| && RemoveObject(objs, name)[p] == objs[j]
    ensures Lookup(RemoveObject(objs, name), other) == Some(objs[j])
  {
    var r := RemoveObject(objs, name);
    forall k | p < k < |r|
      ensures r[k].name != other
    {
      RemoveObjectAt(objs, name, i, k);
    }
    assert IsLast(r, other, p);
    LookupAt(r, other, p);
  }

  /** A name absent before a removal stays absent. */
  lemma RemoveObjectKeepsAbsent(objs: Index, name: string, other: string, i: int)
    requires IsLast(objs, name, i) && Absent(objs, other)
    ensures Absent(RemoveObject(objs, name), other)
  {
    var r := RemoveObject(objs, name);
    forall k | 0 <= k < |r|
      ensures r[k].name != other
    {
      RemoveObjectAt(objs, name, i, k);
    }
  }

  /** One position of `RemoveObject(objs, name)` in terms of `objs`. */
  lemma RemoveObjectAt(objs: Index, name: string, i: int, k: int)
    requires IsLast(objs, name, i) && 0 <= k < |objs| - 1
    ensures RemoveObject(objs, name)[k] == if k < i then objs[k] else objs[k + 1]
  {
    RemoveObjectShifts(objs, name, i);
  }

  /** After removing `name`, a lookup of `name` finds the record of that
      name that preceded the removed one, if any. */
  lemma RemoveObjectLookupSame(objs: Index, name: string, i: int)
    requires IsLast(objs, name, i)
    ensures Lookup(RemoveObject(objs, name), name) == Lookup(objs[..i], name)
  {
    var r := RemoveObject(objs, name);
    RemoveObjectShifts(objs, name, i);
    match LastIndex(objs[..i], name)
    case Some(j) =>
      assert IsLast(r, name, j);
    case None =>
      assert Absent(r, name);
  }

  /** With distinct names, removing `name` really makes it absent. */
  lemma RemoveObjectDistinct(objs: Index, name: string)
    requires Distinct(objs)
    ensures Absent(RemoveObject(objs, name), name)
    ensures Distinct(RemoveObject(objs, name))
  {
    match LastIndex(objs, name)
    case None =>
    case Some(i) =>
      var r := RemoveObject(objs, name);
      assert forall k :: 0 <= k < i ==> r[k] == objs[k];
      assert forall k :: i <= k < |r| ==> r[k] == objs[k + 1];
  }

  /** Assigning a record of the same name keeps names distinct. */
  lemma AssignKeepsDistinct(objs: Index, name: string, o: Object)
    requires Distinct(objs) && o.name == name
    ensures Distinct(Assign(objs, name, Some(o)))
  {
  }

  /** Assigning a record named `name` is the map update `m[name := o]`. */
  lemma AssignIsMapUpdate(objs: Index, name: string, o: Object)
    requires o.name == name
    ensures ToMap(Assign(objs, name, Some(o))) == ToMap(objs)[name := o]
  {
    var a := ToMap(Assign(objs, name, Some(o)));
    var b := ToMap(objs)[name := o];
    forall k
      ensures (k in a <==> k in b) && (k in a ==> a[k] == b[k])
    {
      AssignSomeLookup(objs, name, o, k);
      LookupIsMapGet(Assign(objs, name, Some(o)), k);
      LookupIsMapGet(objs, k);
    }
    assert a.Keys == b.Keys;
  }

  /** On an index with distinct names, `removeObject` is the map removal `m - {name}`. */
  lemma RemoveObjectIsMapRemoval(objs: Index, name: string)
    requires Distinct(objs)
    ensures ToMap(RemoveObject(objs, name)) == ToMap(objs) - {name}
  {
    var a := ToMap(RemoveObject(objs, name));
    var b := ToMap(objs) - {name};
    RemoveObjectDistinct(objs, name);
    forall k
      ensures MapGet(a, k) == MapGet(b, k)
    {
      LookupIsMapGet(RemoveObject(objs, name), k);
      LookupIsMapGet(objs, k);
      if k != name {
        RemoveObjectLookupOther(objs, name, k);
      }
    }
    SameReadingsSameMap(a, b);
  }

  /** Two maps that read alike at every key are the same map. */
  lemma SameReadingsSameMap(a: map<string, Object>, b: map<string, Object>)
    requires forall k :: MapGet(a, k) == MapGet(b, k)
    ensures a == b
  {
    forall k
      ensures (k in a <==> k in b) && (k in a ==> a[k] == b[k])
    {
      assert MapGet(a, k) == MapGet(b, k);
    }
    assert a.Keys == b.Keys;
  }

  /** With a duplicate name, removal does not make the name disappear: the
      older record resurfaces. */
  lemma RemoveRevealsOlderDuplicate(a: Object, b: Object)
    requires a.name == b.name
    ensures Lookup([a, b], a.name) == Some(b)
    ensures Lookup(RemoveObject([a, b], a.name), a.name) == Some(a)
  {
    assert IsLast([a, b], a.name, 1);
    assert RemoveObject([a, b], a.name) == [a];
    assert IsLast([a], a.name, 0);
  }

  // ---------------------------------------------------------------------------
  // Scans used by `hasObject` and `purgeOutdated`.
  // ---------------------------------------------------------------------------

  /** Whether any record, scanning from the front, carries `name` and, when
      `checks` is set, is itself unexpired (the index's `contains(where:)`). */
  function AnyRecord(objs: Index, name: string, checks: bool, now: Instant): (r: bool)
    ensures r <==> exists i :: 0 <= i < |objs| && objs[i].name == name
                              && (checks ==> !IsExpired(objs[i], now))
  {
    if |objs| == 0 then false
    else (objs[0].name == name && (checks ==> !IsExpired(objs[0], now)))
         || AnyRecord(objs[1..], name, checks, now)
  }

  /** The names of the records whose expiration is present and before `now`:
      one entry per such record, in index order, so a name appears as often
      as it has expired records. */
  function ExpiredNames(objs: Index, now: Instant): (r: seq<string>)
    ensures |r| + |Unexpired(objs, now)| == |objs|
    ensures forall n :: n in r <==>
              exists i :: 0 <= i < |objs| && objs[i].name == n && IsExpired(objs[i], now)
  {
    if |objs| == 0 then []
    else
      var rest := ExpiredNames(objs[1..], now);
      assert forall i :: 1 <= i < |objs| ==> objs[i] == objs[1..][i - 1];
      if IsExpired(objs[0], now) then [objs[0].name] + rest else rest
  }

  /** Expired names of a concatenation are those of each part, in order. */
  lemma {:induction false} ExpiredNamesAppend(a: Index, b: Index, now: Instant)
    ensures ExpiredNames(a + b, now) == ExpiredNames(a, now) + ExpiredNames(b, now)
    decreases |a|
  {
    if |a| > 0 {
      var x, t := a[0], a[1..];
      var h := if IsExpired(x, now) then [x.name] else [];
      SplitHead(a, b);
      calc {
        ExpiredNames(a + b, now);
        ExpiredNames([x] + (t + b), now);
        { ExpiredNamesCons(x, t + b, now); }
        h + ExpiredNames(t + b, now);
        { ExpiredNamesAppend(t, b, now); }
        h + (ExpiredNames(t, now) + ExpiredNames(b, now));
        { AppendAssoc(h, ExpiredNames(t, now), ExpiredNames(b, now)); }
        (h + ExpiredNames(t, now)) + ExpiredNames(b, now);
        { ExpiredNamesCons(x, t, now); }
        ExpiredNames(a, now) + ExpiredNames(b, now);
      }
    } else {
      assert a + b == b;
    }
  }

  /** A non-empty sequence is its head followed by its tail, also when extended. */
  lemma SplitHead<T>(a: seq<T>, b: seq<T>)
    requires |a| > 0
    ensures a == [a[0]] + a[1..]
    ensures a + b == [a[0]] + (a[1..] + b)
  {
  }

  lemma AppendAssoc<T>(a: seq<T>, b: seq<T>, c: seq<T>)
    ensures a + (b + c) == (a + b) + c
  {
  }

  /** A record put in front contributes its name first, when it has expired. */
  lemma ExpiredNamesCons(o: Object, t: Index, now: Instant)
    ensures ExpiredNames([o] + t, now) == (if IsExpired(o, now) then [o.name] else []) + ExpiredNames(t, now)
  {
    assert ([o] + t)[0] == o;
    assert ([o] + t)[1..] == t;
  }

  /** A single record contributes its name exactly when it has expired. */
  lemma ExpiredNamesOfOne(o: Object, now: Instant)
    ensures ExpiredNames([o], now) == if IsExpired(o, now) then [o.name] else []
  {
    assert [o][1..] == [];
  }

  /** `removeObject` applied for each name in turn. */
  function RemoveAll(objs: Index, names: seq<string>): Index
    decreases |names|
  {
    if |names| == 0 then objs else RemoveAll(RemoveObject(objs, names[0]), names[1..])
  }

  /** The records that have not expired at `now`, in index order. */
  function Unexpired(objs: Index, now: Instant): (r: Index)
    ensures forall o :: o in r <==> o in objs && !IsExpired(o, now)
  {
    if |objs| == 0 then []
    else if IsExpired(objs[0], now) then Unexpired(objs[1..], now)
    else [objs[0]] + Unexpired(objs[1..], now)
  }

  /** Removal of a name the head does not carry happens in the tail. */
  lemma RemoveObjectSkipsHead(x: Object, t: Index, name: string)
    requires x.name != name
    ensures RemoveObject([x] + t, name) == [x] + RemoveObject(t, name)
  {
    var s := [x] + t;
    var lt := LastIndex(t, name);
    if lt.None? {
      assert Absent(s, name);
    } else {
      RemoveObjectSkipsHeadAt(x, t, name, lt.value);
    }
  }

  lemma RemoveObjectSkipsHeadAt(x: Object, t: Index, name: string, j: int)
    requires x.name != name && IsLast(t, name, j)
    ensures RemoveObject([x] + t, name) == [x] + RemoveObject(t, name)
  {
    var s := [x] + t;
    assert IsLast(s, name, j + 1) by {
      forall k | j + 1 < k < |s|
        ensures s[k].name != name
      {
        assert s[k] == t[k - 1];
      }
    }
    RemoveObjectShiftedHead(x, t, name, j);
  }

  lemma RemoveObjectShiftedHead(x: Object, t: Index, name: string, j: int)
    requires IsLast(t, name, j) && IsLast([x] + t, name, j + 1)
    ensures RemoveObject([x] + t, name) == [x] + RemoveObject(t, name)
  {
    var r, q := RemoveObject([x] + t, name), RemoveObject(t, name);
    assert |r| == |t| && |q| == |t| - 1;
    forall k | 0 <= k < |r|
      ensures r[k] == ([x] + q)[k]
    {
      RemoveObjectAt([x] + t, name, j + 1, k);
      if k > 0 {
        RemoveObjectAt(t, name, j, k - 1);
      }
    }
  }

  lemma {:induction false} RemoveAllSkipsHead(x: Object, t: Index, names: seq<string>)
    requires x.name !in names
    ensures RemoveAll([x] + t, names) == [x] + RemoveAll(t, names)
    decreases |names|
  {
    if |names| > 0 {
      RemoveObjectSkipsHead(x, t, names[0]);
      RemoveAllSkipsHead(x, RemoveObject(t, names[0]), names[1..]);
    }
  }

  /** On an index with distinct names, removing the expired names one by one
      leaves exactly the unexpired records, in their order. */
  lemma {:induction false} RemoveExpiredKeepsUnexpired(objs: Index, now: Instant)
    requires Distinct(objs)
    ensures RemoveAll(objs, ExpiredNames(objs, now)) == Unexpired(objs, now)
    decreases |objs|
  {
    if |objs| > 0 {
      var x, t := objs[0], objs[1..];
      assert objs == [x] + t;
      assert Distinct(t);
      RemoveExpiredKeepsUnexpired(t, now);
      if IsExpired(x, now) {
        assert IsLast(objs, x.name, 0);
        assert RemoveObject(objs, x.name) == t;
        assert ExpiredNames(objs, now)[1..] == ExpiredNames(t, now);
      } else {
        forall i | 0 <= i < |t|
          ensures t[i].name != x.name
        {
          assert objs[i + 1] == t[i];
        }
        RemoveAllSkipsHead(x, t, ExpiredNames(t, now));
      }
    }
  }

  /** With a duplicate name, the purge's removal of the expired name strikes
      the last record of that name, which need not be the expired one: here
      the unexpired record goes and the expired one stays. */
  lemma PurgeRemovesWrongDuplicate(e: Object, l: Object, now: Instant)
    requires e.name == l.name && IsExpired(e, now) && !IsExpired(l, now)
    ensures ExpiredNames([e, l], now) == [e.name]
    ensures RemoveAll([e, l], ExpiredNames([e, l], now)) == [e]
  {
    var objs := [e, l];
    assert objs[1..] == [l] && [l][1..] == [];
    assert IsLast(objs, e.name, 1);
    assert RemoveObject(objs, e.name) == [e];
    assert [e.name][1..] == [];
  }
}

=== FILE: common.dfy ===
/** Shared vocabulary of the cache model: optional values, the three error
    kinds the engine can raise, results that carry them, and raw bytes. */
module Common {

  /** Swift's `Optional`. */
  datatype Option<+T> = None | Some(value: T)

  /** The errors the engine surfaces to its callers.
      - StorageError: a blob or directory could not be created, read, written or removed.
      - SerializationError: the payload could not be encoded, or a blob could not be decoded.
      - PermissionError: a durable fallback was attempted on a non-persistent instance. */
  datatype CacheError = StorageError | SerializationError | PermissionError

  /** A computation that either produced a value or threw one of the engine's errors. */
  datatype Result<+T> = Ok(value: T) | Err(error: CacheError)

  /** Outcome of an operation that throws but returns nothing. */
  datatype Status = Done | Failed(error: CacheError)

  newtype byte = x: int | 0 <= x < 256

  /** The bytes of one durable file. */
  type Blob = seq<byte>

  /** The runtime type a caller asks for (`T` in `get<T>`), compared by name. */
  type TypeTag = string

  /** A wall-clock instant, in whatever unit `Date` compares by. */
  type Instant = int
}

=== FILE: engine.dfy ===
/** The cache engine (`class Sebu`): a volatile store (`NSCache`, a map from
    name to typed payload), the metadata index, and, for a persistent
    instance, one durable file per name. Every operation is a pure function
    of the current state and, where the Swift code reads the clock, of an
    explicit instant `now`. An operation that throws still returns the state
    it left behind: the Swift code mutates memory and the index before it
    reaches the step that can fail. */
module Engine {
  import opened Common
  import opened CacheInfo
  import opened Storage

  /** One cache instance. */
  datatype Sebu = Sebu(
    isPersistent: bool,
    memory: map<string, Payload>,
    info: Index,
    disk: Disk)

  /** The state an operation leaves behind and whether it threw. */
  datatype Step = Step(cache: Sebu, status: Status)

  /** The expiry verdict `get` uses: the name's last record decides, and a
      name without any record counts as expired. */
  predicate ExpiredOrUnknown(info: Index, name: string, now: Instant)
  {
    match Lookup(info, name)
    case None => true
    case Some(o) => IsExpired(o, now)
  }

  /** A volatile-store hit for `name`, kept only when the stored payload has
      the asked-for type (the conditional cast on the `NSCache` object). */
  function VolatileHit(c: Sebu, name: string, want: TypeTag): (r: Option<Payload>)
    ensures r.Some? <==> name in c.memory && c.memory[name].tag == want
    ensures r.Some? ==> r.value == c.memory[name]
  {
    if name in c.memory && c.memory[name].tag == want then Some(c.memory[name]) else None
  }

  /** `set(_:withName:expiration:)`. The payload goes into the volatile store
      and `{name, expiration}` is upserted into the index whatever happens
      next. A non-persistent instance stops there. A persistent one creates
      its directory when missing, encodes the payload and writes it as the
      file `name`, overwriting any earlier one; each of these steps can throw. */
  function Set(c: Sebu, p: Payload, name: string, expiration: Option<Instant>, ser: Serializer): (r: Step)
    ensures r.cache.isPersistent == c.isPersistent
    ensures r.cache.memory == c.memory[name := p]
    ensures r.cache.info == Assign(c.info, name, Some(Object(name, expiration)))
    ensures !c.isPersistent ==> r.status == Done && r.cache.disk == c.disk
    ensures c.isPersistent ==> (r.status == Done <==> c.disk.writable && ser.encode(p).Some?)
    ensures c.isPersistent && r.status == Done ==>
              && r.cache.disk.rootExists
              && ReadBlob(r.cache.disk, name) == Ok(ser.encode(p).value)
              && forall n :: n != name ==> ReadBlob(r.cache.disk, n) == ReadBlob(c.disk, n)
    ensures r.status == Failed(SerializationError) <==>
              c.isPersistent && ser.encode(p).None? && (c.disk.rootExists || c.disk.writable)
    ensures r.status.Failed? ==>
              && r.status.error != PermissionError
              && forall n :: ReadBlob(r.cache.disk, n) == ReadBlob(c.disk, n)
  {
    var c1 := c.(memory := c.memory[name := p],
                 info := Assign(c.info, name, Some(Object(name, expiration))));
    if !c.isPersistent then Step(c1, Done)
    else
      match CreateRoot(c.disk)
      case Err(e) => Step(c1, Failed(e))
      case Ok(d) =>
        match ser.encode(p)
        case None => Step(c1.(disk := d), Failed(SerializationError))
        case Some(b) =>
          match WriteBlob(d, name, b)
          case Err(e) => Step(c1.(disk := d), Failed(e))
          case Ok(d') => Step(c1.(disk := d'), Done)
  }

  /** `get(withName:shouldBypassExpiration:)` asking for type `want`. A
      correctly typed volatile hit is returned when expiration is bypassed or
      the name's metadata is present and not expired. Otherwise a
      non-persistent instance throws, and a persistent one reads and decodes
      the file `name` (missing file or failed decoding throw, expired or not)
      and returns the decoded value under the same expiration rule, else nil. */
  function Get(c: Sebu, name: string, want: TypeTag, bypass: bool, now: Instant, ser: Serializer)
    : (r: Result<Option<Payload>>)
    ensures var trusted := bypass || !ExpiredOrUnknown(c.info, name, now);
            && (VolatileHit(c, name, want).Some? && trusted ==> r == Ok(VolatileHit(c, name, want)))
            && (!(VolatileHit(c, name, want).Some? && trusted) ==>
                  if !c.isPersistent then r == Err(PermissionError)
                  else if ReadBlob(c.disk, name).Err? then r == Err(StorageError)
                  else if ser.decode(ReadBlob(c.disk, name).value, want).None? then r == Err(SerializationError)
                  else r == Ok(if trusted then ser.decode(ReadBlob(c.disk, name).value, want) else None))
    ensures r.Ok? && r.value.Some? ==> bypass || !ExpiredOrUnknown(c.info, name, now)
  {
    var trusted := bypass || !ExpiredOrUnknown(c.info, name, now);
    var hit := VolatileHit(c, name, want);
    if hit.Some? && trusted then Ok(hit)
    else if !c.isPersistent then Err(PermissionError)
    else
      match ReadBlob(c.disk, name)
      case Err(e) => Err(e)
      case Ok(b) =>
        match ser.decode(b, want)
        case None => Err(SerializationError)
        case Some(v) => if trusted then Ok(Some(v)) else Ok(None)
  }

  /** `hasObject(withName:shouldCheckExpiration:)`: true when SOME record of
      the index (not necessarily the last) carries `name` and, when
      `checksExpiration` is set, that record is not expired. Neither the
      volatile store nor the disk is consulted. */
  function HasObject(c: Sebu, name: string, checksExpiration: bool, now: Instant): (r: bool)
    ensures r <==> exists i :: 0 <= i < |c.info| && c.info[i].name == name
                                && (checksExpiration ==> !IsExpired(c.info[i], now))
  {
    AnyRecord(c.info, name, checksExpiration, now)
  }

  /** `clearAll()`: empties the volatile store; a persistent instance then
      deletes its directory (throwing when it is missing) and recreates it
      empty. The index is left as it was. */
  function ClearAll(c: Sebu): (r: Step)
    ensures r.cache.isPersistent == c.isPersistent
    ensures r.cache.memory == map[]
    ensures r.cache.info == c.info
    ensures !c.isPersistent ==> r.status == Done && r.cache.disk == c.disk
    ensures c.isPersistent ==> (r.status == Done <==> c.disk.rootExists && c.disk.writable)
    ensures c.isPersistent && r.status == Done ==> r.cache.disk.rootExists && r.cache.disk.blobs == map[]
    ensures r.status.Failed? ==> r.cache.disk == c.disk && r.status.error == StorageError
  {
    var c1 := c.(memory := map[]);
    if !c.isPersistent then Step(c1, Done)
    else
      match RemoveRoot(c.disk)
      case Err(e) => Step(c1, Failed(e))
      case Ok(d) =>
        match CreateRoot(d)
        case Err(e) => Step(c1.(disk := d), Failed(e))
        case Ok(d') => Step(c1.(disk := d'), Done)
  }

  /** `clear(_:)`: removes the last index record for `name`; a persistent
      instance then deletes the file `name`, throwing when it is missing.
      The volatile store is left as it was. */
  function Clear(c: Sebu, name: string): (r: Step)
    ensures r.cache.isPersistent == c.isPersistent
    ensures r.cache.memory == c.memory
    ensures r.cache.info == RemoveObject(c.info, name)
    ensures !c.isPersistent ==> r.status == Done && r.cache.disk == c.disk
    ensures c.isPersistent ==>
              (r.status == Done <==> c.disk.rootExists && c.disk.writable && name in c.disk.blobs)
    ensures c.isPersistent && r.status == Done ==> r.cache.disk.blobs == c.disk.blobs - {name}
    ensures r.cache.disk.rootExists == c.disk.rootExists && r.cache.disk.writable == c.disk.writable
    ensures r.status.Failed? ==> r.cache.disk == c.disk && r.status.error == StorageError
  {
    var c1 := c.(info := RemoveObject(c.info, name));
    if !c.isPersistent then Step(c1, Done)
    else
      match RemoveBlob(c.disk, name)
      case Err(e) => Step(c1, Failed(e))
      case Ok(d) => Step(c1.(disk := d), Done)
  }

  /** `clear` applied to each name in turn, stopping at the first that throws
      (the `try forEach` of `purgeOutdated`). When every call succeeds, the
      last record of each name has been removed once per occurrence of the
      name, and a persistent instance has lost exactly those files. */
  function ClearEach(c: Sebu, names: seq<string>): (r: Step)
    ensures r.cache.isPersistent == c.isPersistent
    ensures r.cache.memory == c.memory
    ensures !c.isPersistent ==> r.status == Done && r.cache.disk == c.disk
    ensures r.status == Done ==> r.cache.info == RemoveAll(c.info, names)
    ensures r.status == Done && c.isPersistent ==>
              r.cache.disk.blobs == c.disk.blobs - (set n | n in names)
    ensures r.status.Failed? ==> r.status.error == StorageError
    decreases |names|
  {
    if |names| == 0 then Step(c, Done)
    else
      var s := Clear(c, names[0]);
      if s.status.Failed? then s
      else
        NamesOfCons(names);
        ClearEach(s.cache, names[1..])
  }

  /** The names of a non-empty list are its head and the names of its tail. */
  lemma NamesOfCons(names: seq<string>)
    requires |names| > 0
    ensures (set n | n in names) == {names[0]} + (set n | n in names[1..])
  {
    assert names == [names[0]] + names[1..];
  }

  /** `purgeOutdated()`: collects, in index order, the names of the records
      that carry an expiration lying before `now`, then clears each. */
  function PurgeOutdated(c: Sebu, now: Instant): (r: Step)
    ensures r.cache.isPersistent == c.isPersistent
    ensures r.cache.memory == c.memory
    ensures !c.isPersistent ==> r.status == Done && r.cache.disk == c.disk
    ensures r.status == Done ==> r.cache.info == RemoveAll(c.info, ExpiredNames(c.info, now))
    ensures r.status == Done && c.isPersistent ==>
              forall n :: n in r.cache.disk.blobs <==>
                n in c.disk.blobs
                && !exists i :: 0 <= i < |c.info| && c.info[i].name == n && IsExpired(c.info[i], now)
  {
    ClearEach(c, ExpiredNames(c.info, now))
  }
}

=== FILE: engine_facts.dfy ===
/** Properties that relate several engine operations: what a `get` sees
    after a `set`, what `clear` and `clearAll` leave readable, what
    `purgeOutdated` leaves in the index, and which operations keep the
    index free of duplicate names. */
module EngineFacts {
  import opened Common
  import opened CacheInfo
  import opened Storage
  import opened Engine

  /** After `set`, the name's metadata is the record just written. */
  lemma SetRecordsMetadata(c: Sebu, p: Payload, name: string, expiration: Option<Instant>,
                           ser: Serializer, now: Instant)
    ensures Lookup(Set(c, p, name, expiration, ser).cache.info, name) == Some(Object(name, expiration))
    ensures ExpiredOrUnknown(Set(c, p, name, expiration, ser).cache.info, name, now)
        <==> IsExpired(Object(name, expiration), now)
  {
    AssignSomeLookup(c.info, name, Object(name, expiration), name);
  }

  /** A `get` right after `set`, of the same name and type, returns the
      payload from the volatile store when expiration is bypassed or has not
      passed, whether or not the durable write that followed succeeded. */
  lemma SetThenGet(c: Sebu, p: Payload, name: string, expiration: Option<Instant>,
                   ser: Serializer, now: Instant, bypass: bool)
    requires bypass || !IsExpired(Object(name, expiration), now)
    ensures Get(Set(c, p, name, expiration, ser).cache, name, p.tag, bypass, now, ser) == Ok(Some(p))
  {
    SetRecordsMetadata(c, p, name, expiration, ser, now);
  }

  /** Once the expiration of a persistent entry has passed, `get` withholds
      the payload (a policy miss, read from disk and then dropped), while
      `get` with bypass still returns it. Requires a serializer that decodes
      what it encoded. */
  lemma SetThenGetExpiredPersistent(c: Sebu, p: Payload, name: string, expiration: Option<Instant>,
                                    ser: Serializer, now: Instant)
    requires c.isPersistent && Faithful(ser)
    requires Set(c, p, name, expiration, ser).status == Done
    requires IsExpired(Object(name, expiration), now)
    ensures Get(Set(c, p, name, expiration, ser).cache, name, p.tag, false, now, ser) == Ok(None)
    ensures Get(Set(c, p, name, expiration, ser).cache, name, p.tag, true, now, ser) == Ok(Some(p))
  {
    SetRecordsMetadata(c, p, name, expiration, ser, now);
    var b := ser.encode(p).value;
    assert ser.decode(b, p.tag) == Some(p);
  }

  /** A non-persistent instance has no fallback tier: once the expiration has
      passed, `get` without bypass throws. */
  lemma SetThenGetExpiredMemoryOnly(c: Sebu, p: Payload, name: string, expiration: Option<Instant>,
                                    ser: Serializer, now: Instant)
    requires !c.isPersistent
    requires IsExpired(Object(name, expiration), now)
    ensures Get(Set(c, p, name, expiration, ser).cache, name, p.tag, false, now, ser) == Err(PermissionError)
  {
    SetRecordsMetadata(c, p, name, expiration, ser, now);
  }

  /** The volatile store is only a shortcut for a persistent instance: with
      its contents lost (`NSCache` may evict at any time), `get` after a
      successful `set` finds the same payload on disk, under the same
      expiration rule. */
  lemma SetThenGetFromDisk(c: Sebu, p: Payload, name: string, expiration: Option<Instant>,
                           ser: Serializer, now: Instant, bypass: bool)
    requires c.isPersistent && Faithful(ser)
    requires Set(c, p, name, expiration, ser).status == Done
    ensures var evicted := Set(c, p, name, expiration, ser).cache.(memory := map[]);
            Get(evicted, name, p.tag, bypass, now, ser)
              == Ok(if bypass || !IsExpired(Object(name, expiration), now) then Some(p) else None)
  {
    SetRecordsMetadata(c, p, name, expiration, ser, now);
    var b := ser.encode(p).value;
    assert ser.decode(b, p.tag) == Some(p);
  }

  /** `hasObject` ignores expiration on request, and otherwise tells whether
      the freshly written record is still live, as long as the index held no
      duplicate names. */
  lemma SetThenHasObject(c: Sebu, p: Payload, name: string, expiration: Option<Instant>,
                         ser: Serializer, now: Instant)
    ensures HasObject(Set(c, p, name, expiration, ser).cache, name, false, now)
    ensures Distinct(c.info) ==>
              (HasObject(Set(c, p, name, expiration, ser).cache, name, true, now)
               <==> !IsExpired(Object(name, expiration), now))
  {
    var o := Object(name, expiration);
    var info := Set(c, p, name, expiration, ser).cache.info;
    AssignSomeLookup(c.info, name, o, name);
    var i :| IsLast(info, name, i);
    if Distinct(c.info) {
      AssignKeepsDistinct(c.info, name, o);
      assert forall k :: 0 <= k < |info| && info[k].name == name ==> k == i;
    }
  }

  /** On an index without duplicate names, `hasObject` is a question about
      the name's one record, the same record `get` consults. */
  lemma HasObjectIsLookup(c: Sebu, name: string, checks: bool, now: Instant)
    requires Distinct(c.info)
    ensures HasObject(c, name, checks, now)
        <==> Lookup(c.info, name).Some? && (checks ==> !IsExpired(Lookup(c.info, name).value, now))
  {
    if Lookup(c.info, name).Some? {
      var i :| IsLast(c.info, name, i);
      assert forall k :: 0 <= k < |c.info| && c.info[k].name == name ==> k == i;
    }
  }

  /** With a duplicate name, `hasObject` finds a live record that is not the
      last one, while `get` judges the name by its last record, which has
      expired. */
  lemma HasObjectSeesOlderDuplicate(c: Sebu, now: Instant)
    requires c.info == [Object("a", None), Object("a", Some(now - 1))]
    ensures HasObject(c, "a", true, now)
    ensures ExpiredOrUnknown(c.info, "a", now)
  {
    assert c.info[0].name == "a" && !IsExpired(c.info[0], now);
    LookupAt(c.info, "a", 1);
  }

  /** `clear` leaves the volatile store alone: a correctly typed value stays
      readable with bypass, on both kinds of instance. */
  lemma ClearKeepsVolatileValue(c: Sebu, name: string, want: TypeTag, now: Instant, ser: Serializer)
    requires VolatileHit(c, name, want).Some?
    ensures Get(Clear(c, name).cache, name, want, true, now, ser) == Ok(VolatileHit(c, name, want))
  {
  }

  /** On an index without duplicate names, `clear` drops every record of the name. */
  lemma ClearForgetsMetadata(c: Sebu, name: string, now: Instant)
    requires Distinct(c.info)
    ensures !HasObject(Clear(c, name).cache, name, false, now)
    ensures ExpiredOrUnknown(Clear(c, name).cache.info, name, now)
  {
    RemoveObjectDistinct(c.info, name);
  }

  /** After a successful `clearAll` nothing can be read back (a persistent
      instance finds no file, a non-persistent one has no fallback), yet the
      index still reports every name it reported before. */
  lemma ClearAllLeavesStaleMetadata(c: Sebu, name: string, want: TypeTag, bypass: bool,
                                    checks: bool, now: Instant, ser: Serializer)
    requires ClearAll(c).status == Done
    ensures Get(ClearAll(c).cache, name, want, bypass, now, ser)
              == Err(if c.isPersistent then StorageError else PermissionError)
    ensures HasObject(ClearAll(c).cache, name, checks, now) == HasObject(c, name, checks, now)
  {
  }

  /** On an index without duplicate names, a successful `purgeOutdated`
      keeps exactly the unexpired records, in order: nothing expired remains
      and nothing live is lost. */
  lemma PurgeKeepsUnexpired(c: Sebu, now: Instant)
    requires Distinct(c.info)
    requires PurgeOutdated(c, now).status == Done
    ensures PurgeOutdated(c, now).cache.info == Unexpired(c.info, now)
    ensures forall o :: o in PurgeOutdated(c, now).cache.info <==> o in c.info && !IsExpired(o, now)
  {
    RemoveExpiredKeepsUnexpired(c.info, now);
  }

  /** On a non-persistent instance `purgeOutdated` cannot fail, so the purge
      always leaves `hasObject` true exactly for the live names. */
  lemma PurgeMemoryOnly(c: Sebu, name: string, now: Instant)
    requires !c.isPersistent && Distinct(c.info)
    ensures PurgeOutdated(c, now).status == Done
    ensures HasObject(PurgeOutdated(c, now).cache, name, false, now)
        <==> HasObject(c, name, true, now)
  {
    RemoveExpiredKeepsUnexpired(c.info, now);
    var before := c.info;
    var after := PurgeOutdated(c, now).cache.info;
    if HasObject(c, name, true, now) {
      var i :| 0 <= i < |before| && before[i].name == name && !IsExpired(before[i], now);
      assert before[i] in after;
    }
    if HasObject(PurgeOutdated(c, now).cache, name, false, now) {
      var i :| 0 <= i < |after| && after[i].name == name;
      assert after[i] in before;
    }
  }

  /** Removing from a duplicate-free index keeps it duplicate-free. */
  lemma {:induction false} RemoveAllKeepsDistinct(objs: Index, names: seq<string>)
    requires Distinct(objs)
    ensures Distinct(RemoveAll(objs, names))
    decreases |names|
  {
    if |names| > 0 {
      RemoveObjectDistinct(objs, names[0]);
      RemoveAllKeepsDistinct(RemoveObject(objs, names[0]), names[1..]);
    }
  }

  /** Every operation keeps an index without duplicate names that way,
      whether it succeeds or throws. */
  lemma OperationsKeepDistinct(c: Sebu, p: Payload, name: string, expiration: Option<Instant>,
                               ser: Serializer, now: Instant)
    requires Distinct(c.info)
    ensures Distinct(Set(c, p, name, expiration, ser).cache.info)
    ensures Distinct(Clear(c, name).cache.info)
    ensures Distinct(ClearAll(c).cache.info)
    ensures Distinct(PurgeOutdated(c, now).cache.info)
  {
    AssignKeepsDistinct(c.info, name, Object(name, expiration));
    RemoveObjectDistinct(c.info, name);
    ClearEachKeepsDistinct(c, ExpiredNames(c.info, now));
  }

  lemma {:induction false} ClearEachKeepsDistinct(c: Sebu, names: seq<string>)
    requires Distinct(c.info)
    ensures Distinct(ClearEach(c, names).cache.info)
    decreases |names|
  {
    if |names| > 0 {
      RemoveObjectDistinct(c.info, names[0]);
      var s := Clear(c, names[0]);
      if s.status.Done? {
        ClearEachKeepsDistinct(s.cache, names[1..]);
      }
    }
  }

  /** No name is listed twice. */
  predicate NoRepeats(names: seq<string>)
  {
    forall i, j :: 0 <= i < j < |names| ==> names[i] != names[j]
  }

  /** A run of clears whose first clear succeeded continues from its state. */
  lemma ClearEachAfterFirst(c: Sebu, names: seq<string>, k: nat)
    ensures k < |names| && Clear(c, names[0]).status == Done ==>
              ClearEach(c, names[..k + 1]) == ClearEach(Clear(c, names[0]).cache, names[1..][..k])
  {
    if k < |names| {
      var pre := names[..k + 1];
      assert pre[0] == names[0] && pre[1..] == names[1..][..k];
    }
  }

  /** A failing run of clears failed at one name: every clear before it
      succeeded and stays done, and the failing clear has already removed
      that name's index record when it throws. */
  lemma {:induction false} ClearEachStopsAtFirstFailure(c: Sebu, names: seq<string>)
    ensures ClearEach(c, names).status.Failed? ==>
              exists k :: 0 <= k < |names|
                && ClearEach(c, names[..k]).status == Done
                && ClearEach(c, names) == Clear(ClearEach(c, names[..k]).cache, names[k])
    decreases |names|
  {
    if ClearEach(c, names).status == Done { return; }
    var s := Clear(c, names[0]);
    if s.status.Failed? {
      assert names[..0] == [];
      assert ClearEach(c, names[..0]) == Step(c, Done);
      assert ClearEach(c, names) == s;
    } else {
      var rest := names[1..];
      assert ClearEach(c, names) == ClearEach(s.cache, rest);
      ClearEachStopsAtFirstFailure(s.cache, rest);
      var k' :| 0 <= k' < |rest|
                && ClearEach(s.cache, rest[..k']).status == Done
                && ClearEach(s.cache, rest) == Clear(ClearEach(s.cache, rest[..k']).cache, rest[k']);
      ClearEachAfterFirst(c, names, k');
      assert names[k' + 1] == rest[k'];
      assert 0 <= k' + 1 < |names|
             && ClearEach(c, names[..k' + 1]).status == Done
             && ClearEach(c, names) == Clear(ClearEach(c, names[..k' + 1]).cache, names[k' + 1]);
    }
  }

  /** On a persistent instance, clearing distinct names succeeds exactly
      when there is nothing to clear, or the directory exists, accepts
      changes and holds a file for every name. */
  lemma {:induction false} ClearEachSucceedsIff(c: Sebu, names: seq<string>)
    requires c.isPersistent && NoRepeats(names)
    ensures ClearEach(c, names).status == Done
        <==> |names| == 0
             || (c.disk.rootExists && c.disk.writable && forall n :: n in names ==> n in c.disk.blobs)
    decreases |names|
  {
    if |names| > 0 {
      var s := Clear(c, names[0]);
      var rest := names[1..];
      if s.status == Done {
        assert NoRepeats(rest);
        ClearEachSucceedsIff(s.cache, rest);
        assert forall n :: n in rest ==> n != names[0];
        assert forall n :: n in names <==> n == names[0] || n in rest;
      }
    }
  }

  /** An index without duplicate names lists each expired name once. */
  lemma {:induction false} ExpiredNamesNoRepeats(objs: Index, now: Instant)
    requires Distinct(objs)
    ensures NoRepeats(ExpiredNames(objs, now))
    decreases |objs|
  {
    if |objs| > 0 {
      var t := objs[1..];
      assert Distinct(t);
      ExpiredNamesNoRepeats(t, now);
      if IsExpired(objs[0], now) {
        forall i | 0 <= i < |t|
          ensures t[i].name != objs[0].name
        {
          assert t[i] == objs[i + 1];
        }
        assert objs[0].name !in ExpiredNames(t, now);
      }
    }
  }

  /** On a persistent instance whose index has no duplicate names,
      `purgeOutdated` succeeds exactly when every expired record's file is
      present in an existing directory that accepts changes. */
  lemma PurgeSucceedsIff(c: Sebu, now: Instant)
    requires c.isPersistent && Distinct(c.info)
    ensures PurgeOutdated(c, now).status == Done
        <==> forall i :: 0 <= i < |c.info| && IsExpired(c.info[i], now) ==>
               c.disk.rootExists && c.disk.writable && c.info[i].name in c.disk.blobs
  {
    var names := ExpiredNames(c.info, now);
    ExpiredNamesNoRepeats(c.info, now);
    ClearEachSucceedsIff(c, names);
    assert forall i :: 0 <= i < |c.info| && IsExpired(c.info[i], now) ==> c.info[i].name in names;
    assert forall n :: n in names ==>
             exists i :: 0 <= i < |c.info| && c.info[i].name == n && IsExpired(c.info[i], now);
    if |names| > 0 {
      assert names[0] in names;
    }
  }

  /** A persistent run of clears that succeeds found a file for every name,
      and so never met a name twice: the first clear of a name deletes its
      file and a second would find none. */
  lemma {:induction false} ClearEachDoneFilesPresent(c: Sebu, names: seq<string>)
    requires c.isPersistent && ClearEach(c, names).status == Done
    ensures forall n :: n in names ==> n in c.disk.blobs
    ensures NoRepeats(names)
    decreases |names|
  {
    if |names| > 0 {
      var s := Clear(c, names[0]);
      var rest := names[1..];
      assert s.status == Done;
      assert ClearEach(c, names) == ClearEach(s.cache, rest);
      ClearEachDoneFilesPresent(s.cache, rest);
      assert names[0] !in rest by {
        if names[0] in rest {
          assert names[0] in s.cache.disk.blobs;
        }
      }
      NoRepeatsCons(names);
      assert forall n :: n in names ==> n == names[0] || n in rest;
    }
  }

  /** A head that does not recur in a repeat-free tail gives a repeat-free list. */
  lemma NoRepeatsCons(names: seq<string>)
    requires |names| > 0 && NoRepeats(names[1..]) && names[0] !in names[1..]
    ensures NoRepeats(names)
  {
    forall i, j | 0 <= i < j < |names|
      ensures names[i] != names[j]
    {
      assert names[j] == names[1..][j - 1];
      if i > 0 {
        assert names[i] == names[1..][i - 1];
      }
    }
  }

  /** Whenever the expired names repeat, which needs two expired records of
      one name, a persistent purge throws. */
  lemma PurgeFailsOnAnyRepeat(c: Sebu, now: Instant)
    requires c.isPersistent && !NoRepeats(ExpiredNames(c.info, now))
    ensures PurgeOutdated(c, now).status == Failed(StorageError)
  {
    if PurgeOutdated(c, now).status == Done {
      ClearEachDoneFilesPresent(c, ExpiredNames(c.info, now));
    }
  }

  /** With two expired records of one name, a persistent purge clears the
      name twice: the first clear deletes the file, the second finds none
      and throws, after both index records are gone. */
  lemma PurgeFailsOnRepeatedExpiredName(now: Instant, b: Blob)
    ensures var c := Sebu(true, map[], [Object("a", Some(now - 1)), Object("a", Some(now - 2))],
                          Disk(true, true, map["a" := b]));
            && PurgeOutdated(c, now).status == Failed(StorageError)
            && PurgeOutdated(c, now).cache.info == []
  {
    var o1, o2 := Object("a", Some(now - 1)), Object("a", Some(now - 2));
    var c := Sebu(true, map[], [o1, o2], Disk(true, true, map["a" := b]));
    ExpiredNamesAppend([o1], [o2], now);
    ExpiredNamesOfOne(o1, now);
    ExpiredNamesOfOne(o2, now);
    assert [o1] + [o2] == [o1, o2];
    assert ExpiredNames(c.info, now) == ["a", "a"];
    var s := Clear(c, "a");
    assert IsLast([o1, o2], "a", 1);
    assert RemoveObject([o1, o2], "a") == [o1];
    assert s.status == Done;
    assert IsLast([o1], "a", 0);
    assert RemoveObject([o1], "a") == [];
    assert "a" !in s.cache.disk.blobs;
    var f := Clear(s.cache, "a");
    assert f.status == Failed(StorageError) && f.cache.info == [];
    assert ["a", "a"][1..] == ["a"];
    assert ClearEach(c, ["a", "a"]) == ClearEach(s.cache, ["a"]);
    assert ClearEach(s.cache, ["a"]) == f;
  }
}

=== FILE: storage.dfy ===
/** The engine's external collaborators, made abstract: the durable
    directory of one persistent instance, seen as a map from entry name to
    blob, and the serializer, seen as an encode/decode pair. */
module Storage {
  import opened Common

  /** A value handed to `set`: its runtime type and, abstractly, its data. */
  datatype Payload = Payload(tag: TypeTag, content: seq<int>)

  /** The serializer. Encoding may fail; decoding is asked for a given type
      and may fail. Neither is interpreted further by the engine. */
  datatype Serializer = Serializer(
    encode: Payload -> Option<Blob>,
    decode: (Blob, TypeTag) -> Option<Payload>)

  /** Decoding, at the payload's own type, what was encoded gives the payload back. */
  ghost predicate Faithful(ser: Serializer)
  {
    forall p: Payload :: ser.encode(p).Some? ==> ser.decode(ser.encode(p).value, p.tag) == Some(p)
  }

  /** The instance's cache directory: whether it exists, whether the medium
      accepts changes (creating, writing and removing all fail when it does
      not), and the file stored under each entry name. */
  datatype Disk = Disk(rootExists: bool, writable: bool, blobs: map<string, Blob>)

  /** A missing directory holds no files. */
  predicate WellFormed(d: Disk)
  {
    !d.rootExists ==> d.blobs == map[]
  }

  /** Writing the file for `name`: creates it or replaces its contents. */
  function WriteBlob(d: Disk, name: string, b: Blob): (r: Result<Disk>)
    ensures r.Ok? <==> d.rootExists && d.writable
    ensures r.Ok? ==> r.value == d.(blobs := d.blobs[name := b])
    ensures r.Err? ==> r.error == StorageError
  {
    if d.rootExists && d.writable then Ok(d.(blobs := d.blobs[name := b]))
    else Err(StorageError)
  }

  /** Reading the file for `name`: fails when there is no such file. */
  function ReadBlob(d: Disk, name: string): (r: Result<Blob>)
    ensures r.Ok? <==> d.rootExists && name in d.blobs
    ensures r.Ok? ==> r.value == d.blobs[name]
    ensures r.Err? ==> r.error == StorageError
  {
    if d.rootExists && name in d.blobs then Ok(d.blobs[name]) else Err(StorageError)
  }

  /** Deleting the file for `name`: fails when there is no such file. */
  function RemoveBlob(d: Disk, name: string): (r: Result<Disk>)
    ensures r.Ok? <==> d.rootExists && d.writable && name in d.blobs
    ensures r.Ok? ==> r.value == d.(blobs := d.blobs - {name})
    ensures r.Err? ==> r.error == StorageError
  {
    if d.rootExists && d.writable && name in d.blobs then Ok(d.(blobs := d.blobs - {name}))
    else Err(StorageError)
  }

  /** Deleting the whole directory with every file in it: fails when the
      directory does not exist. */
  function RemoveRoot(d: Disk): (r: Result<Disk>)
    ensures r.Ok? <==> d.rootExists && d.writable
    ensures r.Ok? ==> !r.value.rootExists && r.value.blobs == map[] && r.value.writable
    ensures r.Err? ==> r.error == StorageError
  {
    if d.rootExists && d.writable then Ok(Disk(false, true, map[])) else Err(StorageError)
  }

  /** Making sure the directory exists, as both `set` and `clearAll` do: a
      missing directory is created empty; an existing one is left as it is. */
  function CreateRoot(d: Disk): (r: Result<Disk>)
    ensures r.Ok? <==> d.rootExists || d.writable
    ensures r.Ok? ==> r.value.rootExists && r.value.writable == d.writable
    ensures r.Ok? && d.rootExists ==> r.value == d
    ensures r.Ok? && !d.rootExists ==> r.value.blobs == map[]
    ensures r.Err? ==> r.error == StorageError
  {
    if d.rootExists then Ok(d)
    else if d.writable then Ok(d.(rootExists := true, blobs := map[]))
    else Err(StorageError)
  }

  /** Every change to the disk keeps a missing directory empty of files. */
  lemma OperationsKeepWellFormed(d: Disk, name: string, b: Blob)
    requires WellFormed(d)
    ensures WriteBlob(d, name, b).Ok? ==> WellFormed(WriteBlob(d, name, b).value)
    ensures RemoveBlob(d, name).Ok? ==> WellFormed(RemoveBlob(d, name).value)
    ensures RemoveRoot(d).Ok? ==> WellFormed(RemoveRoot(d).value)
    ensures CreateRoot(d).Ok? ==> WellFormed(CreateRoot(d).value)
  {
  }

  /** Creating the directory never makes a file readable: whatever could be
      read afterwards could be read before. */
  lemma CreateRootAddsNoFiles(d: Disk, name: string)
    requires CreateRoot(d).Ok?
    ensures ReadBlob(CreateRoot(d).value, name).Ok? ==> ReadBlob(d, name) == ReadBlob(CreateRoot(d).value, name)
  {
  }

  /** Deleting the directory and creating it again leaves no file readable. */
  lemma RecreatedRootIsEmpty(d: Disk, name: string)
    requires RemoveRoot(d).Ok? && CreateRoot(RemoveRoot(d).value).Ok?
    ensures ReadBlob(CreateRoot(RemoveRoot(d).value).value, name) == Err(StorageError)
    ensures CreateRoot(RemoveRoot(d).value).value.rootExists
  {
  }

  /** A blob written under `name` is read back unchanged, and other files are untouched. */
  lemma ReadAfterWrite(d: Disk, name: string, other: string, b: Blob)
    requires WriteBlob(d, name, b).Ok?
    ensures ReadBlob(WriteBlob(d, name, b).value, name) == Ok(b)
    ensures other != name ==> ReadBlob(WriteBlob(d, name, b).value, other) == ReadBlob(d, other)
  {
  }

  /** A removed blob can no longer be read, and other files are untouched. */
  lemma ReadAfterRemove(d: Disk, name: string, other: string)
    requires RemoveBlob(d, name).Ok?
    ensures ReadBlob(RemoveBlob(d, name).value, name) == Err(StorageError)
    ensures other != name ==> ReadBlob(RemoveBlob(d, name).value, other) == ReadBlob(d, other)
  {
  }
}
